=== FILE: README.md ===
# Account registration and authorization rules

A Dafny model of the identity core of a Spring Boot + React application:
registering accounts against a user/role store, seeding the store at start-up,
turning service outcomes into HTTP responses, listing users for administrators,
and the browser-side authentication context and route guards.

Everything is functional. The store is an immutable `Store` holding the
users in `findAll` order, the role records, and the next id to assign.
`Register` and the start-up runner `Run` are pure functions that return the
outcome, which may be a thrown exception message, together with the new
store. The password encoder, the authentication manager and the JWT
generator are function parameters that the model does not interpret.

Modules:

- `Wrappers`: `Option`, and `Result` for calls that may throw.
- `Entities`: users, role names, the store and its repository queries, the
  authenticated principal (`UserDetails`), and the store invariant
  `Consistent` (unique usernames, emails and ids, and distinct role names).
- `AuthService`: registration and the login response.
- `DataInitializer`: role seeding and the two guarded default-account inserts.
- `AuthController`, `UserController`: the REST endpoints.
- `AuthContext`: the browser's authentication state. Its updates form an
  event machine, with an invariant proved for every sequence of events.
- `Routes`: the `PrivateRoute` and `AdminRoute` guards.
- `Wire`: the backend responses as the browser receives them, and lemmas
  that follow a request end to end.

Two behaviours of the code are easy to misread, and the model keeps them as
written. First, login collapses every failure to the same response. That
includes a failure to generate the token, not only bad credentials. Second,
role seeding is guarded by the role count, but the default accounts are
guarded only by their email. If the store accepts a duplicate username, as
the model's `Save` does, seeding can break username uniqueness
(`DataInitializer.RunIgnoresTakenUsername`).

## Model

| member | source | states |
|---|---|---|
| Entities.AuthorityNames | backend/src/main/java/com/example/fullstackapp/service/AuthService.java:75-77 | the roles list has one entry per authority, namely that authority's name, in the same order |
| AuthService.Register | backend/src/main/java/com/example/fullstackapp/service/AuthService.java:43-64 | checks run username first, then email, then the USER role, each with its fixed message; any failure leaves the store unchanged; succeeds iff username and email are both new and USER is seeded; on success exactly one user is appended, holding the request's username and email, the encoded password and roles {USER}; the role table is unchanged and the id counter advances by one |
| AuthService.RegisterPreservesConsistency | backend/src/main/java/com/example/fullstackapp/service/AuthService.java:44-63 | if usernames, emails, ids and role names are unique before registration, they are unique after it |
| AuthService.RegisterRejectsDuplicates | backend/src/main/java/com/example/fullstackapp/service/AuthService.java:44-50 | after a successful registration, the same username is refused with the username error; a new username with the same email is refused with the email error |
| AuthService.Login | backend/src/main/java/com/example/fullstackapp/service/AuthService.java:66-81 | succeeds iff authentication and token generation both succeed; an authentication failure, or a token-generation failure after a successful authentication, passes its own exception through; on success the type is "Bearer" and id, username, email and roles come from the principal, roles being its authority names in order |
| DataInitializer.SeedRoles | backend/src/main/java/com/example/fullstackapp/config/DataInitializer.java:30-38 | an empty role table becomes exactly [USER, ADMIN]; a non-empty one is left untouched |
| DataInitializer.SeedAccount | backend/src/main/java/com/example/fullstackapp/config/DataInitializer.java:41-51 | an existing email skips the insert; a missing role throws "No value present" and saves nothing; otherwise one account with the encoded default password and that single role is saved |
| DataInitializer.Run | backend/src/main/java/com/example/fullstackapp/config/DataInitializer.java:28-65 | roles end up as [USER, ADMIN] when the table was empty and are otherwise unchanged; existing users are kept as a prefix; at most two users are added, each one of the two default accounts; succeeds iff each default email exists or its role can be found, and then both emails exist |
| DataInitializer.RunInsertsAdminIffEmailAbsent | backend/src/main/java/com/example/fullstackapp/config/DataInitializer.java:41-51 | the admin account is added iff admin@example.com was absent and an ADMIN role record exists after role seeding |
| DataInitializer.RunInsertsUserIffEmailAbsent | backend/src/main/java/com/example/fullstackapp/config/DataInitializer.java:54-64 | the regular account is added iff user@example.com was absent, USER exists after role seeding, and the admin step did not throw first |
| DataInitializer.RunIdempotent | backend/src/main/java/com/example/fullstackapp/config/DataInitializer.java:30-64 | running the initializer on its own result gives the same outcome and the same store |
| DataInitializer.RunIgnoresTakenUsername | backend/src/main/java/com/example/fullstackapp/config/DataInitializer.java:41-44 | a taken "admin" username under another email does not stop the insert; with a `Save` that never rejects a record, usernames then stop being unique |
| DataInitializer.RunKeepsRolesUnique | backend/src/main/java/com/example/fullstackapp/config/DataInitializer.java:30-38 | if no two role records share a name before seeding, none do after it |
| DataInitializer.RunFailsWithoutAdminRole | backend/src/main/java/com/example/fullstackapp/config/DataInitializer.java:48 | a non-empty role table without ADMIN, with no admin account present, makes the runner throw and leaves the store as it was |
| DataInitializer.RunPreservesConsistency | backend/src/main/java/com/example/fullstackapp/config/DataInitializer.java:41-64 | the runner keeps usernames, emails, ids and role names unique when neither default username is held by an account with a different email |
| DataInitializer.RunOnEmptyStore | backend/src/main/java/com/example/fullstackapp/config/DataInitializer.java:28-65 | from an empty store: roles [USER, ADMIN], then the admin account and then the regular account, success, and the resulting store is consistent; the ids 0 and 1 are the model's id counter, not database-generated ids |
| AuthController.RegisterUser | backend/src/main/java/com/example/fullstackapp/controller/AuthController.java:21-28 | status 200 iff a user was added; the 200 body is "User registered successfully!"; the 400 body is the service's exception message, unchanged, and the store is untouched |
| AuthController.RegisterUserMessages | backend/src/main/java/com/example/fullstackapp/controller/AuthController.java:22-27 | the register endpoint answers with one of four fixed messages |
| AuthController.AuthenticateUser | backend/src/main/java/com/example/fullstackapp/controller/AuthController.java:31-38 | 200 carries the service's response unchanged; every failure gives 400 with "Error: Invalid credentials" |
| AuthController.LoginFailuresIndistinguishable | backend/src/main/java/com/example/fullstackapp/controller/AuthController.java:35-37 | any two failed logins get identical responses, whatever the cause (unknown user, wrong password, token failure) |
| UserController.GetCurrentUser | backend/src/main/java/com/example/fullstackapp/controller/UserController.java:27-40 | the profile holds the principal's id, username and email and its authority names in order |
| UserController.CurrentUserMatchesLogin | backend/src/main/java/com/example/fullstackapp/controller/UserController.java:31-37 | the profile and the login response describe the same principal with equal id, username, email and roles |
| UserController.Scrub | backend/src/main/java/com/example/fullstackapp/controller/UserController.java:47 | same length and order; every entry is the original user with a null password |
| UserController.GetAllUsers | backend/src/main/java/com/example/fullstackapp/controller/UserController.java:42-49 | allowed iff the caller holds ROLE_ADMIN; the result then matches the stored users one to one in order, every password null and every other field unchanged |
| AuthContext.IsAuthenticatedIffTokenTruthy | frontend/src/context/AuthContext.jsx:89 | signed in iff the token is truthy; null and "" both count as signed out |
| AuthContext.AnyRoleIs | frontend/src/context/AuthContext.jsx:77 | the search over the roles array is true iff the target string is in it |
| AuthContext.IsAdmin | frontend/src/context/AuthContext.jsx:76-78 | true iff there is a user, it has a roles list, and that list holds exactly "ROLE_ADMIN" |
| AuthContext.Logout | frontend/src/context/AuthContext.jsx:69-74 | stored token, token, user and Authorization header are all cleared, leaving the context signed out and not admin; loading is untouched |
| AuthContext.WithoutTokenIgnoresToken | frontend/src/context/AuthContext.jsx:39 | the user kept after login does not depend on the token field and keeps the response's id and roles |
| AuthContext.Login | frontend/src/context/AuthContext.jsx:33-51 | success iff the request delivered a body; the token is then stored in local storage, the state and the header, and the user is the body minus the token; a failure changes nothing and reports the server message, or "Login failed" when that is missing or empty |
| AuthContext.Register | frontend/src/context/AuthContext.jsx:53-67 | success iff accepted; a failure reports the server message, or "Registration failed" when that is missing or empty |
| AuthContext.OnTokenChange | frontend/src/context/AuthContext.jsx:13-20 | a truthy token sets the "Bearer " header; otherwise loading ends |
| AuthContext.OnFetch | frontend/src/context/AuthContext.jsx:22-31 | a fetched profile becomes the user exactly (its id, username, email and roles, no token type) and loading ends; nothing else changes, and the admin status matches the profile's roles; a failure is exactly a logout |
| AuthContext.InitialInv | frontend/src/context/AuthContext.jsx:7-9 | the state on mount satisfies the context invariant |
| AuthContext.ApplyPreservesInv | frontend/src/context/AuthContext.jsx:13-74 | every update of this context keeps local storage equal to the token state (assuming no other tab writes local storage), keeps the header carrying the current token, and keeps a user present whenever the context is authenticated and not loading |
| AuthContext.ReplayPreservesInv | frontend/src/context/AuthContext.jsx:13-74 | the invariant holds after any sequence of updates |
| AuthContext.FetchFailureSignsOut | frontend/src/context/AuthContext.jsx:27-30 | a failed profile fetch, followed by the token effect it triggers, leaves the context settled, signed out and without header or stored token |
| Routes.PrivateRoute | frontend/src/components/PrivateRoute.jsx:5-17 | Loading while loading; otherwise the children if authenticated, else a replacing redirect to /login |
| Routes.AdminRoute | frontend/src/components/AdminRoute.jsx:5-29 | Loading while loading; redirect to /login when not authenticated; "Access Denied: Admin Only" when not admin; children iff not loading, authenticated and admin |
| Routes.PrivateRouteIgnoresUser | frontend/src/components/PrivateRoute.jsx:6 | two contexts that agree on loading and on being authenticated get the same view, whatever their users and roles |
| Routes.AdminRouteRefinesPrivateRoute | frontend/src/components/AdminRoute.jsx:8-28 | whatever the admin guard admits, the private guard admits too; it denies exactly when the private guard admits a non-admin; otherwise the two agree, so a redirect wins over a denial |
| Routes.AdminChildrenHaveAdminUser | frontend/src/components/AdminRoute.jsx:16-28 | the admin guard renders its children only for a loaded user whose roles hold ROLE_ADMIN |
| Routes.PrivateChildrenHaveUser | frontend/src/components/PrivateRoute.jsx:16 | in any reachable context, when the private guard renders its children there is a user: a settled, authenticated context always holds one |
| Wire.FailedLoginShowsInvalidCredentials | backend/src/main/java/com/example/fullstackapp/controller/AuthController.java:35-37 | whatever made the backend login fail, the browser reports "Error: Invalid credentials" and keeps its state |
| Wire.RegisterErrorReachesBrowser | frontend/src/context/AuthContext.jsx:61-66 | a rejected registration shows the service's own message in the browser, never the fallback |
| Wire.LoginAgreesWithAdminGate | frontend/src/context/AuthContext.jsx:76-78 | after a successful login, the browser's admin check agrees with the backend's ROLE_ADMIN gate, and the context is signed in iff the token is non-empty |
| Wire.FetchAgreesWithAdminGate | frontend/src/context/AuthContext.jsx:22-26 | after a profile fetch, the browser's admin check agrees with the backend gate for the same principal |

## Left out

- Password encoding is an uninterpreted function `encode`. The model states that the stored password is `encode(password)`. It cannot state that this differs from the raw input. Because `encode` is a function, the model's encoder is deterministic: the same plaintext always gets the same hash. So when `DataInitializer.Run` adds both default accounts, the model gives them identical password values. That is an artefact of the model; a salting encoder returns two different hashes for the two calls. Comparison of passwords is not modelled either.
- Credential checking by the authentication manager, and JWT generation and validation, are function parameters. Token contents, signatures and expiry are not modelled, because JwtUtil and the security filter are not part of this model.
- The mapping from role names to authority strings lives in UserDetailsImpl, which is not part of this model. Principals carry their authorities directly. The `hasRole('ADMIN')` gate is modelled as holding the "ROLE_ADMIN" authority, which is how the framework's role check spells it.
- The bean validation of the request bodies (`@Valid`) is not modelled, because the request classes are not part of this model.
- The check-then-insert race in registration and the ambient security context are concurrency and framework state. Each request is modelled as one sequential step, and the principal is passed explicitly.
- Role lookups by name succeed when any role record has that name. The repository's single-result query would throw if two records shared a name. The model does not produce that error. Instead, it keeps role names distinct (`UniqueRoles`, part of `Consistent`). Registration and seeding never break that: only `SeedRoles` creates role records, and only into an empty table (`DataInitializer.RunKeepsRolesUnique`). Seeding can still break the username part of `Consistent`.
- Persistence mechanics are not modelled. `Save` appends a user with the next id and never rejects a record: the User entity and its column constraints are not part of this model. A unique constraint on usernames would make the admin insert throw instead of adding a duplicate.
- `ExistsByUsername` and `ExistsByEmail` compare strings exactly. The derived repository queries compare under the database's collation, which may ignore case.
- `getAllUsers` sets the password to null on the very objects `findAll()` returned. The model returns new values and leaves the store as it was. It thus assumes the change is never written back.
- `UserController.GetAllUsers`: a refused call is modelled as `Forbidden`, without the framework's exact status code or error body.
- Local storage is assumed to be written only by this context. It is shared by every tab of the same origin. A logout or login in another tab changes the stored token without touching this tab's token state. The event model has no event for such an outside write. So the `storedToken == token` part of `AuthContext.Inv` holds only for a single writing tab. The invariant's other two parts, and `Routes.PrivateChildrenHaveUser`, do not depend on it.
- The browser's HTTP client, local storage and React scheduling are modelled as the fields of `ClientState` and as events that can arrive in any order. For this context's own updates that is an over-approximation: the invariant holds for every order. Writes by other tabs are outside it (see the line above). The console logging in `fetchUser` is not modelled.
- `AuthContext.Login`: the profile fetch that the token change triggers after a login is a separate `TokenChanged` / `FetchDone` event, not part of the login update.
- Product catalog code and the pages that only render (admin page, dashboard, navigation bar) are not modelled.

=== FILE: auth_context.dfy ===
/**
 * The browser-side authentication context: the stored token, the token
 * state, the current user, the loading flag and the default Authorization
 * header, with the login, register, logout and user-fetch updates and the
 * derived `isAuthenticated` and `isAdmin` values.
 */
module AuthContext {
  import opened Wrappers
  import AuthService
  import UserController

  const AdminRole := "ROLE_ADMIN"
  const LoginFailedMessage := "Login failed"
  const RegistrationFailedMessage := "Registration failed"

  /**
   * The `user` object: a login response without its token field, or the
   * profile fetched from /users/me (which has no token type). `roles` is
   * `None` when the field is missing.
   */
  datatype ClientUser = ClientUser(tokenType: Option<string>, id: nat, username: string, email: string, roles: Option<seq<string>>)

  /**
   * `storedToken` is the token kept in local storage, `token` the React
   * state, `authHeader` the default Authorization header of the HTTP client.
   */
  datatype ClientState = ClientState(storedToken: Option<string>, token: Option<string>, user: Option<ClientUser>,
                                     loading: bool, authHeader: Option<string>)

  /** What a login request yields: the response body, or a thrown error with its server message, if any. */
  datatype LoginReply = Delivered(body: AuthService.JwtResponse) | Rejected(message: Option<string>)

  /** What a register request yields. */
  datatype RegisterReply = Accepted | Refused(message: Option<string>)

  /** What the profile request yields. */
  datatype FetchReply = Fetched(body: UserController.CurrentUserView) | FetchFailed

  /** The `{ success, message }` object that login and register return. */
  datatype ActionResult = ActionResult(success: bool, message: Option<string>)

  datatype ClientStep = ClientStep(result: ActionResult, state: ClientState)

  /** The state on mount: the token read from local storage, no user, loading. */
  function Initial(stored: Option<string>): (st: ClientState) {
    ClientState(stored, stored, None, true, None)
  }

  /** JavaScript truthiness of a string that may be null: null and "" are falsy. */
  predicate Truthy(t: Option<string>) {
    t.Some? && t.value != ""
  }

  predicate IsAuthenticated(st: ClientState) {
    Truthy(st.token)
  }

  /** `isAuthenticated` is `!!token`: both a null and an empty token count as signed out. */
  lemma IsAuthenticatedIffTokenTruthy(st: ClientState, t: string)
    ensures !IsAuthenticated(st.(token := None))
    ensures !IsAuthenticated(st.(token := Some("")))
    ensures IsAuthenticated(st.(token := Some(t))) <==> t != ""
  {
  }

  /** `roles.some((role) => role === target)`. */
  function AnyRoleIs(roles: seq<string>, target: string): (r: bool)
    ensures r <==> target in roles
  {
    if roles == [] then false else roles[0] == target || AnyRoleIs(roles[1..], target)
  }

  /** `isAdmin()`: a user is present, has a roles list, and the list holds exactly "ROLE_ADMIN". */
  function IsAdmin(st: ClientState): (r: bool)
    ensures r <==> st.user.Some? && st.user.value.roles.Some? && AdminRole in st.user.value.roles.value
  {
    match st.user
    case None => false
    case Some(u) =>
      match u.roles
      case None => false
      case Some(roles) => AnyRoleIs(roles, AdminRole)
  }

  /** `logout()`: the session is forgotten everywhere; the loading flag is left alone. */
  function Logout(st: ClientState): (r: ClientState)
    ensures !IsAuthenticated(r) && !IsAdmin(r)
    ensures r.storedToken.None? && r.token.None? && r.user.None? && r.authHeader.None?
    ensures r.loading == st.loading
  {
    st.(storedToken := None, token := None, user := None, authHeader := None)
  }

  /** The login response body without its `token` field. */
  function WithoutToken(body: AuthService.JwtResponse): (u: ClientUser) {
    ClientUser(Some(body.tokenType), body.id, body.username, body.email, Some(body.roles))
  }

  /** The user kept after login does not depend on the token. */
  lemma WithoutTokenIgnoresToken(body: AuthService.JwtResponse, other: string)
    ensures WithoutToken(body.(token := other)) == WithoutToken(body)
    ensures WithoutToken(body).id == body.id && WithoutToken(body).roles == Some(body.roles)
  {
  }

  /** `error.response?.data?.message || fallback`. */
  function ErrorMessage(message: Option<string>, fallback: string): (m: string) {
    if Truthy(message) then message.value else fallback
  }

  /** `login(username, password)` once the request has settled. */
  function Login(st: ClientState, reply: LoginReply): (r: ClientStep)
    ensures r.result.success <==> reply.Delivered?
    ensures reply.Delivered? ==>
      && r.result.message.None?
      && r.state.storedToken == Some(reply.body.token)
      && r.state.token == Some(reply.body.token)
      && r.state.authHeader == Some("Bearer " + reply.body.token)
      && r.state.user == Some(WithoutToken(reply.body))
      && r.state.loading == st.loading
    ensures reply.Rejected? ==> r.state == st
    ensures reply.Rejected? && Truthy(reply.message) ==> r.result.message == reply.message
    ensures reply.Rejected? && !Truthy(reply.message) ==> r.result.message == Some(LoginFailedMessage)
  {
    match reply
    case Delivered(body) =>
      ClientStep(ActionResult(true, None),
                 st.(storedToken := Some(body.token), token := Some(body.token),
                     authHeader := Some("Bearer " + body.token), user := Some(WithoutToken(body))))
    case Rejected(message) =>
      ClientStep(ActionResult(false, Some(ErrorMessage(message, LoginFailedMessage))), st)
  }

  /** `register(username, email, password)` once the request has settled; the state is not touched. */
  function Register(reply: RegisterReply): (r: ActionResult)
    ensures r.success <==> reply.Accepted?
    ensures reply.Accepted? ==> r.message.None?
    ensures reply.Refused? && Truthy(reply.message) ==> r.message == reply.message
    ensures reply.Refused? && !Truthy(reply.message) ==> r.message == Some(RegistrationFailedMessage)
  {
    match reply
    case Accepted => ActionResult(true, None)
    case Refused(message) => ActionResult(false, Some(ErrorMessage(message, RegistrationFailedMessage)))
  }

  /** The effect that runs whenever the token changes. */
  function OnTokenChange(st: ClientState): (r: ClientState)
    ensures IsAuthenticated(st) ==> r == st.(authHeader := Some("Bearer " + st.token.value))
    ensures !IsAuthenticated(st) ==> r == st.(loading := false)
  {
    if Truthy(st.token) then st.(authHeader := Some("Bearer " + st.token.value)) else st.(loading := false)
  }

  /** `fetchUser()` once the profile request has settled: a failure logs out. */
  function OnFetch(st: ClientState, reply: FetchReply): (r: ClientState)
    ensures reply.FetchFailed? ==> r == Logout(st)
    ensures reply.Fetched? ==> !r.loading && r.token == st.token && r.user.Some?
    ensures reply.Fetched? ==>
      r == st.(user := Some(ClientUser(None, reply.body.id, reply.body.username, reply.body.email, Some(reply.body.roles))),
               loading := false)
    ensures reply.Fetched? ==> (IsAdmin(r) <==> AdminRole in reply.body.roles)
  {
    match reply
    case Fetched(body) =>
      st.(user := Some(ClientUser(None, body.id, body.username, body.email, Some(body.roles))), loading := false)
    case FetchFailed => Logout(st)
  }

  /**
   * Anything that can happen to the context. Any event may occur in any
   * state, which over-approximates the order React and the network allow.
   */
  datatype Event = TokenChanged | FetchDone(fetch: FetchReply) | LoginDone(login: LoginReply) | LogoutCalled

  function Apply(st: ClientState, ev: Event): (r: ClientState) {
    match ev
    case TokenChanged => OnTokenChange(st)
    case FetchDone(reply) => OnFetch(st, reply)
    case LoginDone(reply) => Login(st, reply).state
    case LogoutCalled => Logout(st)
  }

  function Replay(st: ClientState, events: seq<Event>): (r: ClientState)
    decreases |events|
  {
    if events == [] then st else Replay(Apply(st, events[0]), events[1..])
  }

  /**
   * The context's invariant: local storage and the token state agree; the
   * Authorization header, when set, carries the current token; and once
   * loading is over, an authenticated context has a user.
   */
  predicate Inv(st: ClientState) {
    && st.storedToken == st.token
    && (st.authHeader.Some? ==> st.token.Some? && st.authHeader.value == "Bearer " + st.token.value)
    && (!st.loading && IsAuthenticated(st) ==> st.user.Some?)
  }

  lemma InitialInv(stored: Option<string>)
    ensures Inv(Initial(stored))
  {
  }

  lemma ApplyPreservesInv(st: ClientState, ev: Event)
    requires Inv(st)
    ensures Inv(Apply(st, ev))
  {
  }

  /** Every state reachable from mount, by any sequence of events, satisfies the invariant. */
  lemma {:induction false} ReplayPreservesInv(st: ClientState, events: seq<Event>)
    requires Inv(st)
    ensures Inv(Replay(st, events))
    decreases |events|
  {
    if events != [] {
      ApplyPreservesInv(st, events[0]);
      ReplayPreservesInv(Apply(st, events[0]), events[1..]);
    }
  }

  /** A failed profile fetch followed by the effect it triggers leaves a settled, signed-out context. */
  lemma FetchFailureSignsOut(st: ClientState)
    ensures var r := OnTokenChange(OnFetch(st, FetchFailed));
      !r.loading && !IsAuthenticated(r) && !IsAdmin(r) && r.storedToken.None? && r.authHeader.None?
  {
  }
}

=== FILE: auth_controller.dfy ===
/**
 * The authentication endpoints: how the service's outcomes become HTTP
 * responses. Registration echoes the exception message; login collapses
 * every failure to one fixed message.
 */
module AuthController {
  import opened Wrappers
  import opened Entities
  import AuthService

  const RegisteredMessage := "User registered successfully!"
  const InvalidCredentialsMessage := "Error: Invalid credentials"

  datatype MessageResponse = MessageResponse(message: string)

  /** A response entity: 200 with a body, or 400 with a message body. */
  datatype Response<T> = HttpOk(body: T) | HttpBadRequest(error: MessageResponse) {
    function Status(): (code: int) {
      if HttpOk? then 200 else 400
    }
  }

  /** A handled request: the response and the store afterwards. */
  datatype Handled = Handled(response: Response<MessageResponse>, store: Store)

  /** POST /api/auth/register. */
  function RegisterUser(s: Store, request: AuthService.RegisterRequest, encode: string -> string): (r: Handled)
    ensures r.store == AuthService.Register(s, request, encode).store
    ensures r.response.Status() == 200 <==> |r.store.users| == |s.users| + 1
    ensures r.response.HttpOk? ==> r.response.body.message == RegisteredMessage
    ensures r.response.HttpBadRequest? ==>
      && r.store == s
      && r.response.error.message == AuthService.Register(s, request, encode).outcome.message
  {
    var step := AuthService.Register(s, request, encode);
    match step.outcome
    case Ok(_) => Handled(HttpOk(MessageResponse(RegisteredMessage)), step.store)
    case Err(m) => Handled(HttpBadRequest(MessageResponse(m)), step.store)
  }

  /** Every message the register endpoint can answer with is one of four fixed texts. */
  lemma RegisterUserMessages(s: Store, request: AuthService.RegisterRequest, encode: string -> string)
    ensures var r := RegisterUser(s, request, encode).response;
      (if r.HttpOk? then r.body.message else r.error.message) in
        {RegisteredMessage, AuthService.UsernameTakenMessage, AuthService.EmailInUseMessage, AuthService.RoleNotFoundMessage}
  {
  }

  /** POST /api/auth/login. */
  function AuthenticateUser(request: AuthService.LoginRequest, authenticate: AuthService.LoginRequest -> Result<UserDetails>,
                            generateJwt: UserDetails -> Result<string>): (r: Response<AuthService.JwtResponse>)
    ensures r.HttpOk? <==> authenticate(request).Ok? && generateJwt(authenticate(request).value).Ok?
    ensures r.HttpOk? ==> r.body == AuthService.Login(request, authenticate, generateJwt).value
    ensures r.HttpBadRequest? ==> r.error == MessageResponse(InvalidCredentialsMessage)
  {
    match AuthService.Login(request, authenticate, generateJwt)
    case Ok(jwt) => HttpOk(jwt)
    case Err(_) => HttpBadRequest(MessageResponse(InvalidCredentialsMessage))
  }

  /**
   * Any two failed logins get identical responses, whatever the request and
   * whatever failed: an unknown username, a wrong password or the token
   * generator.
   */
  lemma LoginFailuresIndistinguishable(
      request1: AuthService.LoginRequest, authenticate1: AuthService.LoginRequest -> Result<UserDetails>, generateJwt1: UserDetails -> Result<string>,
      request2: AuthService.LoginRequest, authenticate2: AuthService.LoginRequest -> Result<UserDetails>, generateJwt2: UserDetails -> Result<string>)
    requires AuthService.Login(request1, authenticate1, generateJwt1).Err?
    requires AuthService.Login(request2, authenticate2, generateJwt2).Err?
    ensures AuthenticateUser(request1, authenticate1, generateJwt1) == AuthenticateUser(request2, authenticate2, generateJwt2)
  {
  }
}

=== FILE: auth_service.dfy ===
/**
 * The authentication service: registration as a transition of the user
 * store, and the shape of the login response over an abstract
 * authentication manager and token generator.
 */
module AuthService {
  import opened Wrappers
  import opened Entities

  const UsernameTakenMessage := "Error: Username is already taken!"
  const EmailInUseMessage := "Error: Email is already in use!"
  const RoleNotFoundMessage := "Error: Role is not found."
  const BearerType := "Bearer"

  datatype RegisterRequest = RegisterRequest(username: string, email: string, password: string)

  datatype LoginRequest = LoginRequest(username: string, password: string)

  /** The login response body. */
  datatype JwtResponse = JwtResponse(token: string, tokenType: string, id: nat, username: string, email: string, roles: seq<string>)

  /**
   * Registers a new account with the USER role. `encode` is the password
   * encoder, left uninterpreted. The checks run in the order username,
   * email, USER role; the first that fails throws and nothing is saved.
   */
  function Register(s: Store, request: RegisterRequest, encode: string -> string): (r: StoreStep)
    ensures r.outcome.Err? ==> r.store == s
    ensures r.outcome.Ok? <==>
      !ExistsByUsername(s, request.username) && !ExistsByEmail(s, request.email) && HasRole(s, USER)
    ensures ExistsByUsername(s, request.username) ==> r.outcome == Err(UsernameTakenMessage)
    ensures !ExistsByUsername(s, request.username) && ExistsByEmail(s, request.email) ==>
      r.outcome == Err(EmailInUseMessage)
    ensures !ExistsByUsername(s, request.username) && !ExistsByEmail(s, request.email) && !HasRole(s, USER) ==>
      r.outcome == Err(RoleNotFoundMessage)
    ensures r.outcome.Ok? ==>
      && s.users <= r.store.users
      && |r.store.users| == |s.users| + 1
      && r.store.users[|s.users|] == User(s.nextId, request.username, request.email, Some(encode(request.password)), {USER})
      && r.store.roles == s.roles
      && r.store.nextId == s.nextId + 1
  {
    if ExistsByUsername(s, request.username) then
      StoreStep(Err(UsernameTakenMessage), s)
    else if ExistsByEmail(s, request.email) then
      StoreStep(Err(EmailInUseMessage), s)
    else if !HasRole(s, USER) then
      StoreStep(Err(RoleNotFoundMessage), s)
    else
      StoreStep(Ok(()), Save(s, request.username, request.email, encode(request.password), {USER}))
  }

  /** Registration keeps usernames, emails and ids unique. */
  lemma RegisterPreservesConsistency(s: Store, request: RegisterRequest, encode: string -> string)
    requires Consistent(s)
    ensures Consistent(Register(s, request, encode).store)
  {
  }

  /**
   * After a successful registration, registering the same username again
   * fails with the username error, and registering a fresh username with
   * the same email fails with the email error.
   */
  lemma RegisterRejectsDuplicates(s: Store, request: RegisterRequest, again: RegisterRequest, encode: string -> string)
    requires Register(s, request, encode).outcome.Ok?
    ensures again.username == request.username ==>
      Register(Register(s, request, encode).store, again, encode) == StoreStep(Err(UsernameTakenMessage), Register(s, request, encode).store)
    ensures again.username != request.username && !ExistsByUsername(s, again.username) && again.email == request.email ==>
      Register(Register(s, request, encode).store, again, encode) == StoreStep(Err(EmailInUseMessage), Register(s, request, encode).store)
  {
  }

  /**
   * Logs in: `authenticate` stands for the authentication manager and
   * `generateJwt` for the token utility; either may throw. On success the
   * response carries the token, the type "Bearer", the principal's id,
   * username and email, and its authority names in order.
   */
  function Login(request: LoginRequest, authenticate: LoginRequest -> Result<UserDetails>,
                 generateJwt: UserDetails -> Result<string>): (r: Result<JwtResponse>)
    ensures r.Ok? <==> authenticate(request).Ok? && generateJwt(authenticate(request).value).Ok?
    ensures authenticate(request).Err? ==> r == Err(authenticate(request).message)
    ensures authenticate(request).Ok? && generateJwt(authenticate(request).value).Err? ==>
      r == Err(generateJwt(authenticate(request).value).message)
    ensures r.Ok? ==>
      var principal := authenticate(request).value;
      && r.value.token == generateJwt(principal).value
      && r.value.tokenType == BearerType
      && r.value.id == principal.id
      && r.value.username == principal.username
      && r.value.email == principal.email
      && |r.value.roles| == |principal.authorities|
      && forall i :: 0 <= i < |principal.authorities| ==> r.value.roles[i] == principal.authorities[i].authority
  {
    match authenticate(request)
    case Err(m) => Err(m)
    case Ok(principal) =>
      match generateJwt(principal)
      case Err(m) => Err(m)
      case Ok(jwt) =>
        Ok(JwtResponse(jwt, BearerType, principal.id, principal.username, principal.email,
                       AuthorityNames(principal.authorities)))
  }
}

=== FILE: data_initializer.dfy ===
/**
 * The start-up runner that seeds the role table and two default accounts.
 * Its three steps are not wrapped in a transaction: when a later step
 * throws, what the earlier steps saved stays saved.
 */
module DataInitializer {
  import opened Wrappers
  import opened Entities

  const AdminUsername := "admin"
  const AdminEmail := "admin@example.com"
  const UserUsername := "user"
  const UserEmail := "user@example.com"
  const DefaultPassword := "password"
  /** The message of the exception `Optional.orElseThrow()` throws on an empty optional. */
  const NoValuePresent := "No value present"

  /** Inserts the USER and ADMIN role records when the role table is empty. */
  function SeedRoles(s: Store): (r: Store)
    ensures |s.roles| == 0 ==> r.roles == [USER, ADMIN]
    ensures |s.roles| != 0 ==> r == s
    ensures r.users == s.users && r.nextId == s.nextId
  {
    if |s.roles| == 0 then s.(roles := s.roles + [USER] + [ADMIN]) else s
  }

  /**
   * One guarded insert: skipped when the email exists, otherwise the role
   * is looked up (throwing when absent) and the account saved.
   */
  function SeedAccount(s: Store, username: string, email: string, role: RoleName, encode: string -> string): (r: StoreStep)
    ensures ExistsByEmail(s, email) ==> r == StoreStep(Ok(()), s)
    ensures !ExistsByEmail(s, email) && !HasRole(s, role) ==> r == StoreStep(Err(NoValuePresent), s)
    ensures !ExistsByEmail(s, email) && HasRole(s, role) ==>
      && r.outcome.Ok?
      && r.store == Save(s, username, email, encode(DefaultPassword), {role})
    ensures r.outcome.Ok? ==> ExistsByEmail(r.store, email)
  {
    if ExistsByEmail(s, email) then
      StoreStep(Ok(()), s)
    else if !HasRole(s, role) then
      StoreStep(Err(NoValuePresent), s)
    else
      var t := Save(s, username, email, encode(DefaultPassword), {role});
      assert t.users[|s.users|].email == email;
      StoreStep(Ok(()), t)
  }

  /** One of the two default accounts, with the encoded default password. */
  predicate IsDefaultAccount(u: User, encode: string -> string) {
    && u.password == Some(encode(DefaultPassword))
    && ((u.username == AdminUsername && u.email == AdminEmail && u.roles == {ADMIN})
        || (u.username == UserUsername && u.email == UserEmail && u.roles == {USER}))
  }

  /** The runner: seed roles, then the admin account, then the regular account. */
  function Run(s: Store, encode: string -> string): (r: StoreStep)
    ensures |s.roles| == 0 ==> r.store.roles == [USER, ADMIN]
    ensures |s.roles| != 0 ==> r.store.roles == s.roles
    ensures s.users <= r.store.users && |r.store.users| <= |s.users| + 2
    ensures forall i :: |s.users| <= i < |r.store.users| ==> IsDefaultAccount(r.store.users[i], encode)
    ensures r.outcome.Ok? ==> ExistsByEmail(r.store, AdminEmail) && ExistsByEmail(r.store, UserEmail)
    ensures r.outcome.Err? ==> r.outcome.message == NoValuePresent
    ensures r.outcome.Ok? <==>
      && (ExistsByEmail(s, AdminEmail) || HasRole(SeedRoles(s), ADMIN))
      && (ExistsByEmail(s, UserEmail) || HasRole(SeedRoles(s), USER))
  {
    var seeded := SeedRoles(s);
    var admin := SeedAccount(seeded, AdminUsername, AdminEmail, ADMIN, encode);
    if admin.outcome.Err? then
      admin
    else
      SaveExists(seeded, AdminUsername, AdminEmail, encode(DefaultPassword), {ADMIN}, UserUsername, UserEmail);
      SaveExists(admin.store, UserUsername, UserEmail, encode(DefaultPassword), {USER}, UserUsername, AdminEmail);
      SeedAccount(admin.store, UserUsername, UserEmail, USER, encode)
  }

  /**
   * The admin account is inserted exactly when its email was absent and an
   * ADMIN role record exists after role seeding.
   */
  lemma RunInsertsAdminIffEmailAbsent(s: Store, encode: string -> string)
    ensures (exists i :: |s.users| <= i < |Run(s, encode).store.users| && Run(s, encode).store.users[i].email == AdminEmail)
        <==> !ExistsByEmail(s, AdminEmail) && HasRole(SeedRoles(s), ADMIN)
  {
    var seeded := SeedRoles(s);
    var r := Run(s, encode);
    if !ExistsByEmail(s, AdminEmail) && HasRole(seeded, ADMIN) {
      assert r.store.users[|s.users|].email == AdminEmail;
    }
  }

  /**
   * The regular account is inserted exactly when its email was absent, a
   * USER role record exists after role seeding, and the admin step did not
   * throw first.
   */
  lemma RunInsertsUserIffEmailAbsent(s: Store, encode: string -> string)
    ensures (exists i :: |s.users| <= i < |Run(s, encode).store.users| && Run(s, encode).store.users[i].email == UserEmail)
        <==> && !ExistsByEmail(s, UserEmail) && HasRole(SeedRoles(s), USER)
             && (ExistsByEmail(s, AdminEmail) || HasRole(SeedRoles(s), ADMIN))
  {
    var seeded := SeedRoles(s);
    var r := Run(s, encode);
    var admin := SeedAccount(seeded, AdminUsername, AdminEmail, ADMIN, encode);
    if !ExistsByEmail(s, UserEmail) && HasRole(seeded, USER) && (ExistsByEmail(s, AdminEmail) || HasRole(seeded, ADMIN)) {
      SaveExists(seeded, AdminUsername, AdminEmail, encode(DefaultPassword), {ADMIN}, UserUsername, UserEmail);
      assert r.store.users[|admin.store.users|].email == UserEmail;
    }
  }

  /** Running the initializer a second time changes nothing and reports the same outcome. */
  lemma RunIdempotent(s: Store, encode: string -> string)
    ensures Run(Run(s, encode).store, encode) == Run(s, encode)
  {
  }

  /**
   * The guards test emails only: with an "admin" username already taken
   * under another email, the admin account is inserted anyway and the
   * usernames are no longer unique.
   */
  lemma RunIgnoresTakenUsername(s: Store, encode: string -> string)
    requires ExistsByUsername(s, AdminUsername)
    requires !ExistsByEmail(s, AdminEmail) && HasRole(SeedRoles(s), ADMIN)
    ensures !UniqueUsernames(Run(s, encode).store.users)
  {
  }

  /**
   * Seeding never creates a second role record with the same name, even
   * when it breaks username uniqueness.
   */
  lemma RunKeepsRolesUnique(s: Store, encode: string -> string)
    requires UniqueRoles(s.roles)
    ensures UniqueRoles(Run(s, encode).store.roles)
  {
  }

  /** Roles present but no ADMIN record and no admin account: the runner throws and saves nothing. */
  lemma RunFailsWithoutAdminRole(s: Store, encode: string -> string)
    requires |s.roles| != 0 && !HasRole(s, ADMIN) && !ExistsByEmail(s, AdminEmail)
    ensures Run(s, encode) == StoreStep(Err(NoValuePresent), s)
  {
  }

  /**
   * When neither default username is taken by an account with a different
   * email, the runner keeps usernames, emails and ids unique.
   */
  lemma RunPreservesConsistency(s: Store, encode: string -> string)
    requires Consistent(s)
    requires ExistsByUsername(s, AdminUsername) ==> ExistsByEmail(s, AdminEmail)
    requires ExistsByUsername(s, UserUsername) ==> ExistsByEmail(s, UserEmail)
    ensures Consistent(Run(s, encode).store)
  {
    var seeded := SeedRoles(s);
    var admin := SeedAccount(seeded, AdminUsername, AdminEmail, ADMIN, encode);
    if !ExistsByEmail(seeded, AdminEmail) && HasRole(seeded, ADMIN) {
      SavePreservesConsistency(seeded, AdminUsername, AdminEmail, encode(DefaultPassword), {ADMIN});
    }
    if admin.outcome.Ok? && !ExistsByEmail(admin.store, UserEmail) && HasRole(admin.store, USER) {
      if admin.store != seeded {
        SaveExists(seeded, AdminUsername, AdminEmail, encode(DefaultPassword), {ADMIN}, UserUsername, UserEmail);
      }
      SavePreservesConsistency(admin.store, UserUsername, UserEmail, encode(DefaultPassword), {USER});
    }
  }

  /** On an empty store the runner seeds both roles and both accounts, admin first. */
  lemma RunOnEmptyStore(encode: string -> string)
    ensures Run(EmptyStore, encode) == StoreStep(Ok(()), Store(
      [User(0, AdminUsername, AdminEmail, Some(encode(DefaultPassword)), {ADMIN}),
       User(1, UserUsername, UserEmail, Some(encode(DefaultPassword)), {USER})],
      [USER, ADMIN], 2))
    ensures Consistent(Run(EmptyStore, encode).store)
  {
  }
}

=== FILE: entities.dfy ===
/**
 * The persisted records of the backend (users and role records), the
 * repository operations the services call on them, and the authenticated
 * principal that the security layer hands to controllers.
 */
module Entities {
  import opened Wrappers

  /** The closed set of role names a role record can carry. */
  datatype RoleName = USER | ADMIN

  /** A user record. `password` is `None` when the field is null. */
  datatype User = User(id: nat, username: string, email: string, password: Option<string>, roles: set<RoleName>)

  /**
   * The two repositories: users in `findAll` order, role records in the
   * order they were saved, and the id the next saved user receives.
   */
  datatype Store = Store(users: seq<User>, roles: seq<RoleName>, nextId: nat)

  /** A state transition that may throw part-way: the outcome and the resulting store. */
  datatype StoreStep = StoreStep(outcome: Result<()>, store: Store)

  const EmptyStore: Store := Store([], [], 0)

  predicate ExistsByUsername(s: Store, username: string) {
    exists i :: 0 <= i < |s.users| && s.users[i].username == username
  }

  predicate ExistsByEmail(s: Store, email: string) {
    exists i :: 0 <= i < |s.users| && s.users[i].email == email
  }

  /** `roleRepository.findByName(name)` finds a record. */
  predicate HasRole(s: Store, name: RoleName) {
    name in s.roles
  }

  /** `userRepository.save` of a new user: appended with the next id. */
  function Save(s: Store, username: string, email: string, password: string, roles: set<RoleName>): (r: Store) {
    s.(users := s.users + [User(s.nextId, username, email, Some(password), roles)], nextId := s.nextId + 1)
  }

  predicate UniqueUsernames(users: seq<User>) {
    forall i, j :: 0 <= i < j < |users| ==> users[i].username != users[j].username
  }

  predicate UniqueEmails(users: seq<User>) {
    forall i, j :: 0 <= i < j < |users| ==> users[i].email != users[j].email
  }

  /** Ids are distinct and all below the next id to be assigned. */
  predicate FreshIds(s: Store) {
    && (forall i :: 0 <= i < |s.users| ==> s.users[i].id < s.nextId)
    && (forall i, j :: 0 <= i < j < |s.users| ==> s.users[i].id != s.users[j].id)
  }

  /**
   * No two role records share a name, so a lookup by name finds at most one
   * record and never meets the framework's error for a non-unique result.
   */
  predicate UniqueRoles(roles: seq<RoleName>) {
    forall i, j :: 0 <= i < j < |roles| ==> roles[i] != roles[j]
  }

  /** The store invariant the registration and seeding rules are meant to keep. */
  predicate Consistent(s: Store) {
    UniqueUsernames(s.users) && UniqueEmails(s.users) && FreshIds(s) && UniqueRoles(s.roles)
  }

  /** Saving a user whose username and email are both new keeps the store consistent. */
  lemma SavePreservesConsistency(s: Store, username: string, email: string, password: string, roles: set<RoleName>)
    requires Consistent(s)
    requires !ExistsByUsername(s, username) && !ExistsByEmail(s, email)
    ensures Consistent(Save(s, username, email, password, roles))
  {
  }

  /** What saving a user does to the two existence queries. */
  lemma SaveExists(s: Store, username: string, email: string, password: string, roles: set<RoleName>, name: string, mail: string)
    ensures ExistsByUsername(Save(s, username, email, password, roles), name) <==> ExistsByUsername(s, name) || name == username
    ensures ExistsByEmail(Save(s, username, email, password, roles), mail) <==> ExistsByEmail(s, mail) || mail == email
  {
    var t := Save(s, username, email, password, roles);
    assert t.users[|s.users|].username == username && t.users[|s.users|].email == email;
    if ExistsByUsername(s, name) {
      var i :| 0 <= i < |s.users| && s.users[i].username == name;
      assert t.users[i] == s.users[i];
    }
    if ExistsByEmail(s, mail) {
      var i :| 0 <= i < |s.users| && s.users[i].email == mail;
      assert t.users[i] == s.users[i];
    }
    if ExistsByUsername(t, name) && name != username {
      var i :| 0 <= i < |t.users| && t.users[i].username == name;
      assert i < |s.users| && s.users[i] == t.users[i];
    }
    if ExistsByEmail(t, mail) && mail != email {
      var i :| 0 <= i < |t.users| && t.users[i].email == mail;
      assert i < |s.users| && s.users[i] == t.users[i];
    }
  }

  /** One granted authority of a principal, such as "ROLE_ADMIN". */
  datatype GrantedAuthority = GrantedAuthority(authority: string)

  /** The authenticated principal: the user's id, username and email and its authorities in order. */
  datatype UserDetails = UserDetails(id: nat, username: string, email: string, authorities: seq<GrantedAuthority>)

  /** The authority names of a principal, in the order of its authorities. */
  function AuthorityNames(authorities: seq<GrantedAuthority>): (names: seq<string>)
    ensures |names| == |authorities|
    ensures forall i :: 0 <= i < |authorities| ==> names[i] == authorities[i].authority
  {
    if authorities == [] then [] else [authorities[0].authority] + AuthorityNames(authorities[1..])
  }
}

=== FILE: routes.dfy ===
/**
 * The two client-side route guards: what a protected page shows for a
 * given authentication context.
 */
module Routes {
  import opened AuthContext

  const LoginPath := "/login"
  const AdminOnlyText := "Access Denied: Admin Only"

  /** What a guard renders: the loading view, a navigation, the denial notice, or the protected children. */
  datatype View = Loading | Redirect(to: string, replace: bool) | Denied(text: string) | Children

  /** `PrivateRoute`: wait while loading, then the children if authenticated, else go to the login page. */
  function PrivateRoute(st: ClientState): (r: View)
    ensures st.loading ==> r == Loading
    ensures !st.loading && IsAuthenticated(st) ==> r == Children
    ensures !st.loading && !IsAuthenticated(st) ==> r == Redirect(LoginPath, true)
  {
    if st.loading then Loading
    else if IsAuthenticated(st) then Children
    else Redirect(LoginPath, true)
  }

  /** `AdminRoute`: as `PrivateRoute`, then a denial notice unless the user is an admin. */
  function AdminRoute(st: ClientState): (r: View)
    ensures st.loading ==> r == Loading
    ensures !st.loading && !IsAuthenticated(st) ==> r == Redirect(LoginPath, true)
    ensures !st.loading && IsAuthenticated(st) && !IsAdmin(st) ==> r == Denied(AdminOnlyText)
    ensures r == Children <==> !st.loading && IsAuthenticated(st) && IsAdmin(st)
  {
    if st.loading then Loading
    else if !IsAuthenticated(st) then Redirect(LoginPath, true)
    else if !IsAdmin(st) then Denied(AdminOnlyText)
    else Children
  }

  /** The private guard looks only at the loading flag and whether the token is truthy, never at the user. */
  lemma PrivateRouteIgnoresUser(st1: ClientState, st2: ClientState)
    requires st1.loading == st2.loading && IsAuthenticated(st1) == IsAuthenticated(st2)
    ensures PrivateRoute(st1) == PrivateRoute(st2)
  {
  }

  /**
   * The admin guard is stricter than the private one, and agrees with it
   * wherever it does not deny: a redirect wins over a denial even when the
   * admin flag is set.
   */
  lemma AdminRouteRefinesPrivateRoute(st: ClientState)
    ensures AdminRoute(st) == Children ==> PrivateRoute(st) == Children
    ensures AdminRoute(st) == Denied(AdminOnlyText) <==> PrivateRoute(st) == Children && !IsAdmin(st)
    ensures !AdminRoute(st).Denied? ==> AdminRoute(st) == PrivateRoute(st)
  {
  }

  /** The admin guard shows the children only to a loaded user holding ROLE_ADMIN. */
  lemma AdminChildrenHaveAdminUser(st: ClientState)
    requires AdminRoute(st) == Children
    ensures st.user.Some? && st.user.value.roles.Some? && AdminRole in st.user.value.roles.value
  {
  }

  /**
   * In every reachable context, a page the private guard lets through has a
   * user to show: a settled, authenticated context always holds one.
   */
  lemma PrivateChildrenHaveUser(st: ClientState)
    requires Inv(st)
    requires PrivateRoute(st) == Children
    ensures st.user.Some?
  {
  }
}

=== FILE: user_controller.dfy ===
/**
 * The user endpoints: the current principal's profile, and the admin-only
 * listing of all users with their passwords removed.
 */
module UserController {
  import opened Wrappers
  import opened Entities
  import AuthService

  /** The authority that `hasRole('ADMIN')` looks for. */
  const AdminAuthority := "ROLE_ADMIN"

  /** The body of GET /api/users/me. */
  datatype CurrentUserView = CurrentUserView(id: nat, username: string, email: string, roles: seq<string>)

  /** The outcome of a role-guarded endpoint: refused before the body runs, or its result. */
  datatype Guarded<T> = Forbidden | Allowed(value: T)

  /** GET /api/users/me: the principal's id, username, email and authority names. */
  function GetCurrentUser(principal: UserDetails): (r: CurrentUserView)
    ensures r.id == principal.id && r.username == principal.username && r.email == principal.email
    ensures |r.roles| == |principal.authorities|
    ensures forall i :: 0 <= i < |principal.authorities| ==> r.roles[i] == principal.authorities[i].authority
  {
    CurrentUserView(principal.id, principal.username, principal.email, AuthorityNames(principal.authorities))
  }

  /** The profile endpoint and the login response describe the same principal identically. */
  lemma CurrentUserMatchesLogin(request: AuthService.LoginRequest, authenticate: AuthService.LoginRequest -> Result<UserDetails>,
                                generateJwt: UserDetails -> Result<string>)
    requires AuthService.Login(request, authenticate, generateJwt).Ok?
    ensures var jwt := AuthService.Login(request, authenticate, generateJwt).value;
      GetCurrentUser(authenticate(request).value) == CurrentUserView(jwt.id, jwt.username, jwt.email, jwt.roles)
  {
  }

  /** Copies of the users with the password set to null, in the same order. */
  function Scrub(users: seq<User>): (r: seq<User>)
    ensures |r| == |users|
    ensures forall i :: 0 <= i < |users| ==> r[i] == users[i].(password := None)
  {
    if users == [] then [] else [users[0].(password := None)] + Scrub(users[1..])
  }

  /** The `hasRole('ADMIN')` gate: the caller holds the ROLE_ADMIN authority. */
  predicate IsAdminCaller(caller: UserDetails) {
    AdminAuthority in AuthorityNames(caller.authorities)
  }

  /**
   * GET /api/users/all: refused unless the caller holds ROLE_ADMIN; then
   * every stored user in `findAll` order, without its password.
   */
  function GetAllUsers(caller: UserDetails, s: Store): (r: Guarded<seq<User>>)
    ensures r.Allowed? <==> exists i :: 0 <= i < |caller.authorities| && caller.authorities[i].authority == AdminAuthority
    ensures r.Allowed? ==> |r.value| == |s.users|
    ensures r.Allowed? ==> forall i :: 0 <= i < |s.users| ==>
      && r.value[i].password.None?
      && r.value[i].id == s.users[i].id
      && r.value[i].username == s.users[i].username
      && r.value[i].email == s.users[i].email
      && r.value[i].roles == s.users[i].roles
  {
    if IsAdminCaller(caller) then Allowed(Scrub(s.users)) else Forbidden
  }
}

=== FILE: wire.dfy ===
/**
 * How the backend's responses reach the browser context: a response with a
 * status outside 2xx makes the HTTP client throw, and the context reads the
 * `message` field of the error body.
 */
module Wire {
  import opened Wrappers
  import opened Entities
  import AuthService
  import AuthController
  import UserController
  import AuthContext

  function LoginReplyOf(response: AuthController.Response<AuthService.JwtResponse>): (reply: AuthContext.LoginReply) {
    match response
    case HttpOk(body) => AuthContext.Delivered(body)
    case HttpBadRequest(error) => AuthContext.Rejected(Some(error.message))
  }

  function RegisterReplyOf(response: AuthController.Response<AuthController.MessageResponse>): (reply: AuthContext.RegisterReply) {
    match response
    case HttpOk(_) => AuthContext.Accepted
    case HttpBadRequest(error) => AuthContext.Refused(Some(error.message))
  }

  /** Whatever made the backend login fail, the browser reports "Error: Invalid credentials" and keeps its state. */
  lemma FailedLoginShowsInvalidCredentials(st: AuthContext.ClientState, request: AuthService.LoginRequest,
                                           authenticate: AuthService.LoginRequest -> Result<UserDetails>,
                                           generateJwt: UserDetails -> Result<string>)
    requires AuthService.Login(request, authenticate, generateJwt).Err?
    ensures AuthContext.Login(st, LoginReplyOf(AuthController.AuthenticateUser(request, authenticate, generateJwt)))
         == AuthContext.ClientStep(AuthContext.ActionResult(false, Some(AuthController.InvalidCredentialsMessage)), st)
  {
  }

  /**
   * A rejected registration shows the service's own message in the browser;
   * the "Registration failed" fallback is never used for it.
   */
  lemma RegisterErrorReachesBrowser(s: Store, request: AuthService.RegisterRequest, encode: string -> string)
    requires AuthService.Register(s, request, encode).outcome.Err?
    ensures AuthContext.Register(RegisterReplyOf(AuthController.RegisterUser(s, request, encode).response))
         == AuthContext.ActionResult(false, Some(AuthService.Register(s, request, encode).outcome.message))
  {
  }

  /**
   * After a successful login the browser's admin check agrees with the
   * backend's ROLE_ADMIN gate for the same principal, and the context is
   * signed in exactly when the token is non-empty.
   */
  lemma LoginAgreesWithAdminGate(st: AuthContext.ClientState, s: Store, request: AuthService.LoginRequest,
                                 authenticate: AuthService.LoginRequest -> Result<UserDetails>,
                                 generateJwt: UserDetails -> Result<string>)
    requires AuthService.Login(request, authenticate, generateJwt).Ok?
    ensures var after := AuthContext.Login(st, LoginReplyOf(AuthController.AuthenticateUser(request, authenticate, generateJwt))).state;
      && (AuthContext.IsAdmin(after) <==> UserController.GetAllUsers(authenticate(request).value, s).Allowed?)
      && (AuthContext.IsAuthenticated(after) <==> generateJwt(authenticate(request).value).value != "")
  {
  }

  /** A profile fetched from the backend gives the browser the same admin verdict as the backend gate. */
  lemma FetchAgreesWithAdminGate(st: AuthContext.ClientState, s: Store, principal: UserDetails)
    ensures AuthContext.IsAdmin(AuthContext.OnFetch(st, AuthContext.Fetched(UserController.GetCurrentUser(principal))))
        <==> UserController.GetAllUsers(principal, s).Allowed?
  {
  }
}

=== FILE: wrappers.dfy ===
/** Optional values and the outcome of a call that may throw. */
module Wrappers {

  /** A value that may be absent: a Java null or an empty `Optional`, a missing JavaScript field. */
  datatype Option<+T> = None | Some(value: T)

  /** The outcome of a call that may throw; `Err` carries the exception's message. */
  datatype Result<+T> = Ok(value: T) | Err(message: string)
}
